=== FILE: README.md ===
# Serve-attempt emailer, modelled in Dafny

This project models the serverless handler in `functions/emailer/src/main.js`. The handler
takes a request that carries a JSON payload with `to`, `subject`, `html`, `text` and,
optionally, a serve-attempt id (`serveId`) or an inline image (`imageData`). It builds an
email from the fixed no-reply address and attaches the serve-evidence image, if any, as
`serve_evidence.jpeg`. It then hands the email to the email provider and answers with a
`{success, message, data?}` record.

The handler is modelled as the pure function `Emailer.Handle`. The surrounding world enters
as an `Environment` value:

- the provider API key (`RESEND_KEY`) as an optional string;
- `JSON.parse` and `JSON.stringify` as functions;
- the document store's `getDocument` lookup as a function from the serve id to
  `FetchError(message) | Fetched(image_data)`;
- the provider's `emails.send` as a function from the email to `Delivered(data) | SendError(message)`;
- the runtime's text for three of the type errors that reach the outermost `catch`: destructuring a `null` payload, writing an unconvertible serve id into the log line before the lookup, and calling `includes` on a non-string inline image.

`Handle` returns a `Run`. A `Run` holds the response and records the external calls the
handler made: the serve id it looked up, and the email it handed to the provider. Properties
such as "no send is attempted" are therefore statements about that record.

Files:

- `wrappers.dfy`: `Option` and `Result`.
- `json.dfy`: parsed JSON values, JavaScript truthiness, conversion to text in a template literal, and property reads by destructuring.
- `text.dfy`: `indexOf`, `includes` and `split` with a non-empty separator, and `join`, the inverse of `split`.
  It also holds the data-URI extraction `content.split("base64,")[1]`.
- `emailer.dfy`: the request, collaborator, email and response types, the pipeline stages and the handler.
- `handler_properties.dfy`: the properties of the whole handler.

## Model

| member | source | states |
|---|---|---|
| `JsonValue.FalsyValues` | functions/emailer/src/main.js:32 | The values the guards treat as missing are exactly `undefined`, `null`, `false`, `0` and `""`. An empty array or object counts as present. |
| `Text.IndexOf` | functions/emailer/src/main.js:71 | The search returns an occurrence at or after the start position with no occurrence before it, or reports that none exists from there on. |
| `Text.Contains` | functions/emailer/src/main.js:71 | `includes` holds exactly when the marker occurs at some index. |
| `Text.Split` | functions/emailer/src/main.js:72 | `split` always yields at least one piece. |
| `Text.JoinSplit` | functions/emailer/src/main.js:72 | Joining the pieces of a split with the separator gives back the original string. |
| `Text.SplitPiecesFree` | functions/emailer/src/main.js:72 | No piece of a split contains the separator. |
| `Text.SplitCount` | functions/emailer/src/main.js:71-72 | A string splits into two or more pieces exactly when it contains the separator. So `split(...)[1]` is defined whenever the `includes` guard holds. |
| `Text.ExtractBase64` | functions/emailer/src/main.js:71-73 | Content without the `base64,` marker is used unchanged. Content with the marker yields something no longer than the content minus the marker. |
| `Text.ExtractIsSecondPiece` | functions/emailer/src/main.js:71-73 | When the content contains the marker, the extraction equals the second piece of `split("base64,")`. |
| `Text.ExtractAfterFirstMarker` | functions/emailer/src/main.js:89-91 | After the first marker, the extraction is a marker-free stretch of the content. It runs up to the next marker or to the end. |
| `Text.DataUriPayload` | functions/emailer/src/main.js:89-91 | For `prefix + "base64," + data` with no marker in the prefix or the data, the extraction is exactly `data`. |
| `Emailer.RawPayload` | functions/emailer/src/main.js:14-20 | A non-empty `bodyText` is the text to parse. Otherwise a truthy string `body` is used verbatim and any other truthy `body` is serialised. The result is empty (no payload) exactly when nothing non-empty remains. |
| `Emailer.ReadPayload` | functions/emailer/src/main.js:12-26 | Every failure message begins with `Failed to parse payload: `. A missing payload reports `No valid payload found in request`, and a parse error reports the parser's message. |
| `Emailer.ResolveAttachments` | functions/emailer/src/main.js:59-100 | At most one attachment results, and it is named `serve_evidence.jpeg` with encoding `base64`. It aborts exactly when a serve id is present and the lookup fails or yields a truthy non-string image. It faults exactly when there is no serve id and the inline image is truthy but not a string. It yields no attachment exactly when the record has no image, or when neither source is present. |
| `JsonValue.Truthy` | functions/emailer/src/main.js:32 | JavaScript truthiness of JSON values, used by the guards on lines 15, 32, 61, 69 and 87; its falsy values are characterised by `JsonValue.FalsyValues`. |
| `JsonValue.NonEmpty` | functions/emailer/src/main.js:38 | Truthiness of a string that may be `undefined`: the API key on line 38, and `bodyText` and the raw text on lines 14-18. `JsonValue.NonEmptyTruthy` ties it to `JsonValue.Truthy`. |
| `JsonValue.NonEmptyTruthy` | functions/emailer/src/main.js:38 | A possibly-undefined string is truthy exactly when the same text as a JSON string is, so `undefined` and `""` are the only falsy ones. |
| `JsonValue.Unprintable` | functions/emailer/src/main.js:62 | Which values make `${serveId}` throw: an object with an own `toString` member, or an array with such a value somewhere among its elements. `JsonValue.UnprintableExamples` shows both kinds and values that convert. |
| `JsonValue.UnprintableExamples` | functions/emailer/src/main.js:62 | `{"toString": "x"}` and an array holding `{"toString": 1}` cannot be converted. An object with only `valueOf`, nested arrays of convertible values, strings, numbers and booleans can. |
| `JsonValue.Field` | functions/emailer/src/main.js:30 | Destructuring reads an own member of an object payload and `undefined` otherwise; what the handler does with the fields is stated by `HandlerProperties.SentMessageShape` and `HandlerProperties.MissingFieldsIff`. |
| `Emailer.Destructure` | functions/emailer/src/main.js:30 | The six destructured fields; their use is stated by `HandlerProperties.SentMessageShape` and `HandlerProperties.LookupOnlyForServeId`. |
| `Emailer.MissingRequired` | functions/emailer/src/main.js:32 | The required-field guard; `HandlerProperties.MissingFieldsIff` proves the missing-fields response appears exactly when it holds. |
| `Emailer.Recipients` | functions/emailer/src/main.js:52 | `Array.isArray(to) ? to : [to]`; `HandlerProperties.SentMessageShape` states the recipient list the provider receives. |
| `Emailer.Compose` | functions/emailer/src/main.js:50-57 | The `emailData` record before attachments; `HandlerProperties.SentMessageShape` states its fields as the provider receives them. |
| `Emailer.Evidence` | functions/emailer/src/main.js:75-79 | The evidence attachment (also lines 93-97); `HandlerProperties.StoredImageAttached` and `HandlerProperties.InlineImageWithoutLookup` state its name, content and encoding. |
| `Emailer.Deliver` | functions/emailer/src/main.js:104-111 | The response for the send call's outcome; `HandlerProperties.DeliveryOutcome` states both branches. |
| `Emailer.Handle` | functions/emailer/src/main.js:6-117 | `success` holds exactly when an email reached the provider and the send call returned a response (did not throw). `data` appears only on success. Nothing is looked up or sent without a non-empty API key, and any lookup uses a truthy serve id that converts to text. An email that reaches the provider comes from the fixed sender and carries at most one evidence attachment. |
| `HandlerProperties.BodyTextPreferred` | functions/emailer/src/main.js:14-15 | When `bodyText` is non-empty, replacing `body` with anything leaves the whole run unchanged. |
| `HandlerProperties.StringBodyVerbatim` | functions/emailer/src/main.js:15-16 | Without `bodyText`, a non-empty string `body` behaves exactly as if it had arrived as `bodyText`. |
| `HandlerProperties.StructuredBodySerialised` | functions/emailer/src/main.js:15-16 | Without `bodyText`, a truthy non-string `body` behaves exactly as its `JSON.stringify` text arriving as `bodyText`. |
| `HandlerProperties.NoPayloadRejected` | functions/emailer/src/main.js:18-25 | With neither source present, the response is the parse failure `No valid payload found in request`, and no lookup or send happens. |
| `HandlerProperties.MalformedPayloadRejected` | functions/emailer/src/main.js:21-25 | An unparsable payload fails with `Failed to parse payload: ` followed by the parser's message, and no lookup or send happens. |
| `HandlerProperties.NullPayloadFaults` | functions/emailer/src/main.js:113-116 | A payload that parses to `null` ends in the outermost catch with an `Error: ` message. |
| `HandlerProperties.MissingFieldsIff` | functions/emailer/src/main.js:32-34 | The fixed missing-fields message is reported exactly when the parsed payload lacks a truthy `to`, a truthy `subject`, or both a truthy `html` and a truthy `text`. |
| `HandlerProperties.ValidationPrecedesCollaborators` | functions/emailer/src/main.js:32-40 | A request with missing fields is rejected without a lookup or a send, and its outcome does not depend on the API key, the store or the provider. |
| `HandlerProperties.ApiKeyPrecedesCollaborators` | functions/emailer/src/main.js:36-40 | With the fields present but no API key, the answer is `API key is missing`, and the store and provider play no part. |
| `HandlerProperties.SentMessageShape` | functions/emailer/src/main.js:50-57 | Only accepted requests reach the provider. The email has the fixed `from`, an array `to` passed through unchanged (any other `to` becomes a one-element list), `subject`, `html` and `text` copied unchanged, and the resolver's attachments. The serve id, if any, could be converted to text. |
| `HandlerProperties.EmptyRecipientListAccepted` | functions/emailer/src/main.js:32-57 | A payload with `to: []` passes the required-field check. When the serve id converts to text and the attachments resolve, the email reaches the provider with an empty recipient list. |
| `HandlerProperties.ServeIdDecides` | functions/emailer/src/main.js:61-91 | With a serve id present, the inline `imageData` never affects the attachments. |
| `HandlerProperties.StoredImageAttached` | functions/emailer/src/main.js:69-79 | A record whose `image_data` is a non-empty string yields exactly one evidence attachment, whose content is the extracted base64 of that string. |
| `HandlerProperties.InlineImageWithoutLookup` | functions/emailer/src/main.js:87-97 | Without a serve id the store plays no part. An inline string image yields exactly one evidence attachment with its extracted base64. |
| `HandlerProperties.LookupOnlyForServeId` | functions/emailer/src/main.js:61-68 | The store is consulted exactly for requests that passed both checks and carry a truthy serve id that converts to text, and it is consulted with that id. |
| `HandlerProperties.ServeIdLogFaults` | functions/emailer/src/main.js:61-64 | A truthy serve id that cannot be converted to text makes the log line before the lookup throw. The answer is `Error: ` with the runtime's message, nothing is looked up or sent, and the store and provider play no part. |
| `HandlerProperties.FetchFailureAborts` | functions/emailer/src/main.js:83-86 | A failed lookup answers `Failed to fetch serve attempt document`, with no data, and nothing is sent. |
| `HandlerProperties.DeliveryOutcome` | functions/emailer/src/main.js:104-111 | A send call that returns a response (does not throw) answers `Email sent successfully` with that response unmodified as `data`. A send call that throws answers `Failed to send email: ` followed by the exception's message. |

## Behaviour worth noting

- `to` is tested only for truthiness, and an empty array is truthy. So `to: []` passes the field check and the email is sent with no recipients (`HandlerProperties.EmptyRecipientListAccepted`).
- At least one of `html` and `text` must be truthy; both may be present.
- `split("base64,")[1]` stops at a second marker if there is one, so the attachment content is the stretch between the first and second markers (`Text.ExtractAfterFirstMarker`).
- A failed lookup aborts the whole request; it never degrades to sending without the attachment.
- The serve id is written into a log line before the lookup and outside its `try`. An id such as `{"toString": "x"}` cannot be converted to text, so the request ends in the outer catch with no lookup (`HandlerProperties.ServeIdLogFaults`).
- Only `image_data` is read from the looked-up record.
- A non-empty `bodyText` is preferred over `body`; `body` is only a fallback.
- The send call counts as successful whenever it returns rather than throws; the handler never inspects the returned value (`HandlerProperties.DeliveryOutcome`).

## Left out

- The handler has no map-link stripping, details block, retry loop or SMTP transport, so none is modelled.
- The Resend client and the Appwrite `Client`/`Databases` construction. These are foreign SDK calls at lines 42-48, outside both inner `try` blocks. Their construction is assumed to succeed; a throw there would answer `Error: …` from the outer catch. The lookup and the send appear only as functions in `Environment`, and nothing about how they work is modelled.
- `process.env` reads other than the API key. The endpoint, project, database and collection ids only configure the store client.
- `JSON.parse` and `JSON.stringify` internals. They are opaque functions. Serialisation is assumed never to throw, which holds for the JSON values the runtime delivers.
- Logging (`log`, `error` and the truncated payload dump at line 24), except the serve-id line at line 62, which can throw and is modelled. The other log lines convert strings and string lengths, or serialise the parsed payload and the provider's response. They are assumed not to throw and have no effect on the response.
- Async sequencing. The handler awaits one call at a time and has no concurrency.
- Numbers are exact reals rather than IEEE doubles. The handler only uses them for truthiness, where zero is the only falsy number a parser can produce.
- Strings are sequences of Unicode scalar values, not the UTF-16 code units JavaScript strings hold. A lone surrogate, which a JSON `\uD800` escape can produce, has no representation here. `includes` and `split` on the ASCII marker `base64,` behave the same under either view.
- The wording of the runtime's type-error messages. The outer catch is modelled as `Error: ` followed by an abstract message.
- `Emailer.ResolveAttachments`: an `imageData` or `image_data` that is a non-string array is modelled as a type error. In JavaScript an array has its own `includes`, so one that does not contain the element `"base64,"` would be attached as it is.
- `Emailer.Handle`: a send call that resolves with a response carrying a provider error (the Resend SDK reports API rejections as `{ data: null, error }` rather than by throwing) is still reported as success, exactly as the handler does; the model treats the returned value as opaque and does not tell the two apart.
- Transport-level status codes. The handler always answers through `res.json`, so there is no status code to model.

=== FILE: emailer.dfy ===
/**
 * The serve-attempt emailer: one request in, one `{success, message, data}`
 * response out. The handler reads the raw payload, checks the required fields,
 * composes the message, resolves the evidence image into at most one
 * attachment, hands the message to the email provider and maps every outcome
 * to a response.
 *
 * Everything the handler asks of the outside world is an input: the provider's
 * API key, `JSON.parse`, `JSON.stringify`, the document store's lookup, the
 * provider's send call and the runtime's type-error text. A `Run` records,
 * next to the response, which external calls were made and with what.
 */
module Emailer {
  import opened Wrappers
  import opened JsonValue
  import opened Text

  const Sender: string := "no-reply@justlegalsolutions.tech"
  const EvidenceFilename: string := "serve_evidence.jpeg"
  const EvidenceEncoding: string := "base64"

  // The longer messages are assembled from shorter literals: the verifier can
  // read the characters of a short string literal but not of a long one, and
  // the proofs that tell the messages apart need their first characters.

  /** The common start of the three failure reports about a stage. */
  const FailedTo: string := "Failed to "
  const ParseFailurePrefix: string := FailedTo + "parse payload: "
  const NoPayloadDetail: string := "No valid payload found in request"
  const RequiredFieldsHint: string := "(to, subject, and either html or text)"
  const MissingFieldsMessage: string := "Missing required fields " + RequiredFieldsHint
  const MissingKeyMessage: string := "API key is missing"
  const FetchFailedMessage: string := FailedTo + "fetch serve attempt document"
  const SentMessage: string := "Email sent successfully"
  const SendFailurePrefix: string := FailedTo + "send email: "
  const ErrorPrefix: string := "Error: "

  /** The incoming request: its raw text and its body as the runtime delivers it. */
  datatype Request = Request(bodyText: Option<string>, body: Option<Json>)

  /** What `JSON.parse` does with a text: a value, or an exception's message. */
  datatype ParseResult = Parsed(value: Json) | Malformed(message: string)

  /** What the document store's lookup of a serve attempt does: the record's
      `image_data` field, or an exception's message. */
  datatype FetchResult = FetchError(message: string) | Fetched(imageData: Option<Json>)

  datatype Attachment = Attachment(filename: string, content: string, encoding: string)

  /** The message handed to the email provider. */
  datatype Email = Email(
    from: string,
    to: seq<Json>,
    subject: Json,
    html: Option<Json>,
    text: Option<Json>,
    attachments: seq<Attachment>)

  /** What the provider's send call does: its response object, or an exception's message. */
  datatype SendResult = Delivered(data: Json) | SendError(message: string)

  datatype Response = Response(success: bool, message: string, data: Option<Json>)

  /** A runtime type error that escapes to the handler's outermost catch. */
  datatype Fault =
    | NullPayload          // destructuring a payload that parsed to `null`
    | ServeIdUnprintable   // writing a serve id into the log line before its lookup
    | ImageNotString       // calling `includes` on an `imageData` that is not a string

  /** The handler's collaborators. */
  datatype Environment = Environment(
    apiKey: Option<string>,
    parse: string -> ParseResult,
    stringify: Json -> string,
    fetch: Json -> FetchResult,
    send: Email -> SendResult,
    faultMessage: Fault -> string)

  /** The response, the serve id looked up in the store (if any) and the
      message handed to the provider (if any). */
  datatype Run = Run(response: Response, fetched: Option<Json>, sent: Option<Email>)

  /** The six payload fields the handler destructures. */
  datatype Fields = Fields(
    to: Option<Json>,
    subject: Option<Json>,
    html: Option<Json>,
    text: Option<Json>,
    serveId: Option<Json>,
    imageData: Option<Json>)

  /** How image content resolves into attachments. */
  datatype Resolution =
    | Attached(attachments: seq<Attachment>)
    | FetchAborted
    | ImageFault

  // ---------------------------------------------------------------------------
  // Payload source selection and parsing

  /** The text that would be parsed: a non-empty `bodyText`; otherwise a truthy
      `body`, verbatim when it is a string and serialised when it is not;
      `None` when what is left is empty. */
  function RawPayload(req: Request, stringify: Json -> string): (raw: Option<string>)
    ensures raw.Some? ==> raw.value != ""
    ensures NonEmpty(req.bodyText) ==> raw == req.bodyText
    ensures !NonEmpty(req.bodyText) && !Truthy(req.body) ==> raw.None?
    ensures !NonEmpty(req.bodyText) && Truthy(req.body) && req.body.value.JString? ==>
      raw == Some(req.body.value.s)
    ensures !NonEmpty(req.bodyText) && Truthy(req.body) && !req.body.value.JString? ==>
      (raw.Some? <==> stringify(req.body.value) != "") &&
      (raw.Some? ==> raw.value == stringify(req.body.value))
  {
    if NonEmpty(req.bodyText) then req.bodyText
    else if Truthy(req.body) then
      var b := req.body.value;
      var text := if b.JString? then b.s else stringify(b);
      if text != "" then Some(text) else None
    else None
  }

  /** The parsed payload, or the failure message for a missing or malformed one. */
  function ReadPayload(req: Request, env: Environment): (r: Result<Json, string>)
    ensures r.Failure? ==> |r.error| >= |ParseFailurePrefix| && r.error[..|ParseFailurePrefix|] == ParseFailurePrefix
    ensures RawPayload(req, env.stringify).None? ==> r == Failure(ParseFailurePrefix + NoPayloadDetail)
    ensures RawPayload(req, env.stringify).Some? ==>
      match env.parse(RawPayload(req, env.stringify).value)
      case Parsed(v) => r == Success(v)
      case Malformed(m) => r == Failure(ParseFailurePrefix + m)
  {
    match RawPayload(req, env.stringify)
    case None => Failure(ParseFailurePrefix + NoPayloadDetail)
    case Some(raw) =>
      match env.parse(raw)
      case Parsed(v) => Success(v)
      case Malformed(m) => Failure(ParseFailurePrefix + m)
  }

  /** `const { to, subject, html, text, serveId, imageData } = payload`. */
  function Destructure(payload: Json): Fields {
    Fields(Field(payload, "to"), Field(payload, "subject"), Field(payload, "html"),
           Field(payload, "text"), Field(payload, "serveId"), Field(payload, "imageData"))
  }

  // ---------------------------------------------------------------------------
  // Validation and composition

  /** The required-field check: `to` and `subject` truthy, and `html` or `text` truthy. */
  predicate MissingRequired(f: Fields) {
    !Truthy(f.to) || !Truthy(f.subject) || (!Truthy(f.html) && !Truthy(f.text))
  }

  /** `Array.isArray(to) ? to : [to]`. */
  function Recipients(to: Json): seq<Json> {
    if to.JArray? then to.items else [to]
  }

  /** The message before any attachment is resolved. */
  function Compose(f: Fields): Email
    requires !MissingRequired(f)
  {
    Email(Sender, Recipients(f.to.value), f.subject.value, f.html, f.text, [])
  }

  /** A serve id is present but cannot be converted to text, so the log line
      written just before its lookup throws. */
  predicate ServeIdFaults(f: Fields) {
    Truthy(f.serveId) && Unprintable(f.serveId.value)
  }

  // ---------------------------------------------------------------------------
  // Attachment resolution

  /** The evidence attachment built from image content. */
  function Evidence(content: string): Attachment {
    Attachment(EvidenceFilename, ExtractBase64(content), EvidenceEncoding)
  }

  /** The serve id, when present, decides alone: the store's record supplies the
      image, a failed lookup (or an `image_data` that is not a string, which
      throws inside the same `try`) aborts, a record without an image gives no
      attachment. Only without a serve id is `imageData` read. */
  function ResolveAttachments(serveId: Option<Json>, imageData: Option<Json>, fetch: Json -> FetchResult): (r: Resolution)
    ensures r.Attached? ==> |r.attachments| <= 1
    ensures r.Attached? ==> forall a :: a in r.attachments ==>
      a.filename == EvidenceFilename && a.encoding == EvidenceEncoding
    ensures r.FetchAborted? <==>
      Truthy(serveId) && (fetch(serveId.value).FetchError? ||
        (Truthy(fetch(serveId.value).imageData) && !fetch(serveId.value).imageData.value.JString?))
    ensures r.ImageFault? <==> !Truthy(serveId) && Truthy(imageData) && !imageData.value.JString?
    ensures r == Attached([]) <==>
      if Truthy(serveId) then fetch(serveId.value).Fetched? && !Truthy(fetch(serveId.value).imageData)
      else !Truthy(imageData)
  {
    if Truthy(serveId) then
      match fetch(serveId.value)
      case FetchError(_) => FetchAborted
      case Fetched(image) =>
        if !Truthy(image) then Attached([])
        else if image.value.JString? then Attached([Evidence(image.value.s)])
        else FetchAborted
    else if Truthy(imageData) then
      if imageData.value.JString? then Attached([Evidence(imageData.value.s)]) else ImageFault
    else Attached([])
  }

  // ---------------------------------------------------------------------------
  // Outcome mapping and the handler

  /** A failure response with no data. */
  function Failed(message: string): Response {
    Response(false, message, None)
  }

  /** A run that stops before any external call. */
  function Halt(message: string): Run {
    Run(Failed(message), None, None)
  }

  /** The response for the provider's answer. */
  function Deliver(result: SendResult): Response {
    match result
    case Delivered(data) => Response(true, SentMessage, Some(data))
    case SendError(m) => Failed(SendFailurePrefix + m)
  }

  /** The handler. */
  function Handle(req: Request, env: Environment): (run: Run)
    ensures run.response.success <==> run.sent.Some? && env.send(run.sent.value).Delivered?
    ensures run.response.data.Some? ==> run.response.success
    ensures run.sent.Some? ==> run.response == Deliver(env.send(run.sent.value))
    ensures run.sent.Some? || run.fetched.Some? ==> NonEmpty(env.apiKey)
    ensures run.fetched.Some? ==> Truthy(run.fetched) && !Unprintable(run.fetched.value)
    ensures run.sent.Some? ==>
      var e := run.sent.value;
      e.from == Sender && |e.attachments| <= 1 &&
      forall a :: a in e.attachments ==> a.filename == EvidenceFilename && a.encoding == EvidenceEncoding
  {
    match ReadPayload(req, env)
    case Failure(message) => Halt(message)
    case Success(payload) =>
      if payload.JNull? then Halt(ErrorPrefix + env.faultMessage(NullPayload))
      else
        var f := Destructure(payload);
        if MissingRequired(f) then Halt(MissingFieldsMessage)
        else if !NonEmpty(env.apiKey) then Halt(MissingKeyMessage)
        else if ServeIdFaults(f) then Halt(ErrorPrefix + env.faultMessage(ServeIdUnprintable))
        else
          var draft := Compose(f);
          var fetched := if Truthy(f.serveId) then f.serveId else None;
          match ResolveAttachments(f.serveId, f.imageData, env.fetch)
          case FetchAborted => Run(Failed(FetchFailedMessage), fetched, None)
          case ImageFault => Halt(ErrorPrefix + env.faultMessage(ImageNotString))
          case Attached(attachments) =>
            var email := draft.(attachments := attachments);
            Run(Deliver(env.send(email)), fetched, Some(email))
  }
}

=== FILE: handler_properties.dfy ===
/**
 * Properties of the emailer handler as a whole: which input decides the
 * payload, the order of the checks, what reaches the provider, how the
 * evidence image is chosen, and how each outcome is reported.
 */
module HandlerProperties {
  import opened Wrappers
  import opened JsonValue
  import opened Text
  import opened Emailer

  /** The destructured fields of the payload, when parsing succeeded and the
      payload is not `null`. */
  function PayloadFields(req: Request, env: Environment): Option<Fields> {
    match ReadPayload(req, env)
    case Failure(_) => None
    case Success(p) => if p.JNull? then None else Some(Destructure(p))
  }

  /** The request passes the required-field check and the API-key check. */
  predicate Accepted(req: Request, env: Environment) {
    PayloadFields(req, env).Some? && !MissingRequired(PayloadFields(req, env).value) && NonEmpty(env.apiKey)
  }

  // ---------------------------------------------------------------------------
  // Payload source selection

  /** A non-empty `bodyText` is the payload: `body` is never looked at. */
  lemma BodyTextPreferred(req: Request, env: Environment, other: Option<Json>)
    requires NonEmpty(req.bodyText)
    ensures Handle(req.(body := other), env) == Handle(req, env)
  {
    assert RawPayload(req.(body := other), env.stringify) == RawPayload(req, env.stringify);
  }

  /** Without `bodyText`, a non-empty string `body` is handled exactly as if it
      had arrived as `bodyText`. */
  lemma StringBodyVerbatim(req: Request, env: Environment)
    requires !NonEmpty(req.bodyText)
    requires req.body.Some? && req.body.value.JString? && req.body.value.s != ""
    ensures Handle(req, env) == Handle(Request(Some(req.body.value.s), None), env)
  {
    assert RawPayload(req, env.stringify) == RawPayload(Request(Some(req.body.value.s), None), env.stringify);
  }

  /** Without `bodyText`, a truthy `body` that is not a string is handled as
      its serialisation would be. */
  lemma StructuredBodySerialised(req: Request, env: Environment)
    requires !NonEmpty(req.bodyText)
    requires Truthy(req.body) && !req.body.value.JString?
    ensures Handle(req, env) == Handle(Request(Some(env.stringify(req.body.value)), None), env)
  {
    assert RawPayload(req, env.stringify) == RawPayload(Request(Some(env.stringify(req.body.value)), None), env.stringify);
  }

  /** With neither a non-empty `bodyText` nor a truthy `body`, the request fails
      as a parse failure, before any external call. */
  lemma NoPayloadRejected(req: Request, env: Environment)
    requires !NonEmpty(req.bodyText) && !Truthy(req.body)
    ensures Handle(req, env) == Run(Response(false, ParseFailurePrefix + NoPayloadDetail, None), None, None)
  {
  }

  /** A payload that does not parse fails with the parser's message after the
      parse-failure prefix, before any external call. */
  lemma MalformedPayloadRejected(req: Request, env: Environment, raw: string, detail: string)
    requires RawPayload(req, env.stringify) == Some(raw)
    requires env.parse(raw) == Malformed(detail)
    ensures Handle(req, env) == Run(Response(false, ParseFailurePrefix + detail, None), None, None)
  {
  }

  /** A payload that parses to `null` escapes to the outermost handler. */
  lemma NullPayloadFaults(req: Request, env: Environment)
    requires ReadPayload(req, env) == Success(JNull)
    ensures Handle(req, env) == Run(Response(false, ErrorPrefix + env.faultMessage(NullPayload), None), None, None)
  {
  }

  // ---------------------------------------------------------------------------
  // Required fields and the order of the checks

  /** The first character of every fixed message and prefix. The fixed
      messages are told apart by their first letters; this lemma has to be
      revisited if a message is reworded to start with another letter. */
  lemma MessageInitials()
    ensures |MissingFieldsMessage| > 0 && MissingFieldsMessage[0] == 'M'
    ensures |ParseFailurePrefix| > 0 && ParseFailurePrefix[0] == 'F'
    ensures |ErrorPrefix| > 0 && ErrorPrefix[0] == 'E'
    ensures |MissingKeyMessage| > 0 && MissingKeyMessage[0] == 'A'
    ensures |FetchFailedMessage| > 0 && FetchFailedMessage[0] == 'F'
    ensures |SentMessage| > 0 && SentMessage[0] == 'E'
    ensures |SendFailurePrefix| > 0 && SendFailurePrefix[0] == 'F'
  {
  }

  /** Once a request is accepted, its message starts with `F` (a fetch or
      send failure) or `E` (success, or a fault). */
  lemma AcceptedMessageInitial(req: Request, env: Environment)
    requires Accepted(req, env)
    ensures var msg := Handle(req, env).response.message;
      |msg| > 0 && (msg[0] == 'F' || msg[0] == 'E')
  {
    MessageInitials();
    var run := Handle(req, env);
    if run.sent.Some? {
      match env.send(run.sent.value)
      case Delivered(_) =>
      case SendError(e) =>
        assert run.response.message == SendFailurePrefix + e;
    } else {
      var f := PayloadFields(req, env).value;
      match ResolveAttachments(f.serveId, f.imageData, env.fetch)
      case FetchAborted =>
      case ImageFault =>
        assert run.response.message == ErrorPrefix + env.faultMessage(ImageNotString);
      case Attached(_) =>
    }
  }

  /** Every message other than the missing-fields one starts with another letter. */
  lemma OtherMessageInitial(req: Request, env: Environment)
    requires !(PayloadFields(req, env).Some? && MissingRequired(PayloadFields(req, env).value))
    ensures var msg := Handle(req, env).response.message;
      |msg| > 0 && msg[0] != 'M'
  {
    MessageInitials();
    match ReadPayload(req, env)
    case Failure(e) =>
    case Success(p) =>
      if p.JNull? {
        assert Handle(req, env).response.message == ErrorPrefix + env.faultMessage(NullPayload);
      } else if NonEmpty(env.apiKey) {
        AcceptedMessageInitial(req, env);
      }
  }

  /** The fixed missing-fields message is reported exactly when the parsed
      payload lacks `to`, `subject`, or both `html` and `text`. */
  lemma MissingFieldsIff(req: Request, env: Environment)
    ensures Handle(req, env).response.message == MissingFieldsMessage <==>
      PayloadFields(req, env).Some? && MissingRequired(PayloadFields(req, env).value)
  {
    MessageInitials();
    if !(PayloadFields(req, env).Some? && MissingRequired(PayloadFields(req, env).value)) {
      OtherMessageInitial(req, env);
    }
  }

  /** A request with missing fields is rejected before the API key, the store
      or the provider is consulted: none of them changes the outcome. */
  lemma ValidationPrecedesCollaborators(
    req: Request, env: Environment,
    apiKey: Option<string>, fetch: Json -> FetchResult, send: Email -> SendResult)
    requires PayloadFields(req, env).Some? && MissingRequired(PayloadFields(req, env).value)
    ensures Handle(req, env) == Run(Response(false, MissingFieldsMessage, None), None, None)
    ensures Handle(req, env.(apiKey := apiKey, fetch := fetch, send := send)) == Handle(req, env)
  {
    var env' := env.(apiKey := apiKey, fetch := fetch, send := send);
    assert ReadPayload(req, env') == ReadPayload(req, env);
  }

  /** With the fields present but no API key, the request is rejected before
      the store or the provider is consulted. */
  lemma ApiKeyPrecedesCollaborators(
    req: Request, env: Environment, fetch: Json -> FetchResult, send: Email -> SendResult)
    requires PayloadFields(req, env).Some? && !MissingRequired(PayloadFields(req, env).value)
    requires !NonEmpty(env.apiKey)
    ensures Handle(req, env) == Run(Response(false, MissingKeyMessage, None), None, None)
    ensures Handle(req, env.(fetch := fetch, send := send)) == Handle(req, env)
  {
    var env' := env.(fetch := fetch, send := send);
    assert ReadPayload(req, env') == ReadPayload(req, env);
  }

  // ---------------------------------------------------------------------------
  // The composed message

  /** Whatever reaches the provider comes from an accepted request: it is sent
      from the fixed address, to the normalised recipients, with subject, html
      and text copied unchanged, and with the attachments the resolver chose. */
  lemma SentMessageShape(req: Request, env: Environment)
    requires Handle(req, env).sent.Some?
    ensures Accepted(req, env)
    ensures var f := PayloadFields(req, env).value;
      var e := Handle(req, env).sent.value;
      && e.from == Sender
      && (f.to.value.JArray? ==> e.to == f.to.value.items)
      && (!f.to.value.JArray? ==> e.to == [f.to.value])
      && e.subject == f.subject.value
      && e.html == f.html
      && e.text == f.text
      && !ServeIdFaults(f)
      && ResolveAttachments(f.serveId, f.imageData, env.fetch) == Attached(e.attachments)
  {
  }

  /** An empty recipient array is truthy, so a payload whose `to` is `[]`
      passes the required-field check whenever the other fields do, and the
      email reaches the provider with an empty recipient list (unless the
      serve id's log line or the image resolution stops the run first). */
  lemma EmptyRecipientListAccepted(req: Request, env: Environment)
    requires PayloadFields(req, env).Some?
    requires var f := PayloadFields(req, env).value;
      && f.to == Some(JArray([]))
      && Truthy(f.subject) && (Truthy(f.html) || Truthy(f.text))
      && !ServeIdFaults(f)
      && ResolveAttachments(f.serveId, f.imageData, env.fetch).Attached?
    requires NonEmpty(env.apiKey)
    ensures Handle(req, env).sent.Some? && Handle(req, env).sent.value.to == []
  {
  }

  // ---------------------------------------------------------------------------
  // Attachment resolution

  /** With a serve id present, the inline `imageData` is never consulted. */
  lemma ServeIdDecides(serveId: Option<Json>, image1: Option<Json>, image2: Option<Json>, fetch: Json -> FetchResult)
    requires Truthy(serveId)
    ensures ResolveAttachments(serveId, image1, fetch) == ResolveAttachments(serveId, image2, fetch)
  {
  }

  /** The stored image, when the record has one as a non-empty string, becomes
      the single evidence attachment. */
  lemma StoredImageAttached(serveId: Option<Json>, imageData: Option<Json>, fetch: Json -> FetchResult, content: string)
    requires Truthy(serveId)
    requires fetch(serveId.value) == Fetched(Some(JString(content))) && content != ""
    ensures ResolveAttachments(serveId, imageData, fetch) ==
      Attached([Attachment(EvidenceFilename, ExtractBase64(content), EvidenceEncoding)])
  {
  }

  /** Without a serve id the store is never consulted, and an inline string
      image becomes the single evidence attachment. */
  lemma InlineImageWithoutLookup(
    serveId: Option<Json>, imageData: Option<Json>, fetch1: Json -> FetchResult, fetch2: Json -> FetchResult)
    requires !Truthy(serveId)
    ensures ResolveAttachments(serveId, imageData, fetch1) == ResolveAttachments(serveId, imageData, fetch2)
    ensures Truthy(imageData) && imageData.value.JString? ==>
      ResolveAttachments(serveId, imageData, fetch1) ==
        Attached([Attachment(EvidenceFilename, ExtractBase64(imageData.value.s), EvidenceEncoding)])
  {
  }

  /** The store is looked up exactly for accepted requests with a serve id
      that can be written into the log line, and with that id. */
  lemma LookupOnlyForServeId(req: Request, env: Environment)
    ensures Handle(req, env).fetched.Some? <==>
      Accepted(req, env) && Truthy(PayloadFields(req, env).value.serveId)
      && !ServeIdFaults(PayloadFields(req, env).value)
    ensures Handle(req, env).fetched.Some? ==> Handle(req, env).fetched == PayloadFields(req, env).value.serveId
  {
  }

  /** A failed lookup aborts with the fixed fetch-failure message; nothing is sent. */
  lemma FetchFailureAborts(req: Request, env: Environment)
    requires Accepted(req, env)
    requires var f := PayloadFields(req, env).value;
      Truthy(f.serveId) && !ServeIdFaults(f) && env.fetch(f.serveId.value).FetchError?
    ensures Handle(req, env).response == Response(false, FetchFailedMessage, None)
    ensures Handle(req, env).sent.None?
  {
  }

  /** A serve id that cannot be converted to text makes the log line before
      the lookup throw: the run ends in the outermost handler, and neither the
      store nor the provider changes the outcome. */
  lemma ServeIdLogFaults(req: Request, env: Environment, fetch: Json -> FetchResult, send: Email -> SendResult)
    requires Accepted(req, env)
    requires ServeIdFaults(PayloadFields(req, env).value)
    ensures Handle(req, env) ==
      Run(Response(false, ErrorPrefix + env.faultMessage(ServeIdUnprintable), None), None, None)
    ensures Handle(req, env.(fetch := fetch, send := send)) == Handle(req, env)
  {
    var env' := env.(fetch := fetch, send := send);
    assert ReadPayload(req, env') == ReadPayload(req, env);
  }

  // ---------------------------------------------------------------------------
  // Delivery

  /** The provider's answer decides the response: its data unmodified on
      success, its message after the send-failure prefix otherwise. */
  lemma DeliveryOutcome(req: Request, env: Environment)
    requires Handle(req, env).sent.Some?
    ensures var run := Handle(req, env);
      match env.send(run.sent.value)
      case Delivered(d) => run.response == Response(true, SentMessage, Some(d))
      case SendError(m) => run.response == Response(false, SendFailurePrefix + m, None)
  {
  }
}

=== FILE: json.dfy ===
/**
 * JSON values as the handler sees them after parsing, together with
 * JavaScript's notion of truthiness, which decides every branch of the handler.
 */
module JsonValue {
  import opened Wrappers

  /** A parsed JSON value. Numbers are kept as exact reals: only their
      comparison with zero matters to the handler. */
  datatype Json =
    | JNull
    | JBool(b: bool)
    | JNumber(n: real)
    | JString(s: string)
    | JArray(items: seq<Json>)
    | JObject(members: map<string, Json>)

  /** JavaScript truthiness of a value that may be `undefined` (`None`):
      `undefined`, `null`, `false`, `0` and `""` are falsy, everything else,
      including an empty array or object, is truthy. */
  predicate Truthy(v: Option<Json>) {
    match v
    case None => false
    case Some(JNull) => false
    case Some(JBool(b)) => b
    case Some(JNumber(n)) => n != 0.0
    case Some(JString(s)) => s != ""
    case Some(JArray(_)) => true
    case Some(JObject(_)) => true
  }

  /** Truthiness of an optional string (a request text or an environment variable). */
  predicate NonEmpty(s: Option<string>) {
    s.Some? && s.value != ""
  }

  /** An optional string is truthy exactly as the same text would be as a JSON
      string value: `undefined` and `""` are the only falsy ones. */
  lemma NonEmptyTruthy(s: Option<string>)
    ensures NonEmpty(s) <==> Truthy(if s.Some? then Some(JString(s.value)) else None)
  {
  }

  /** Interpolating `v` into a template literal throws a TypeError. A parsed
      object is converted through the inherited `toString` unless it has an own
      `toString` member; that member is never callable, and the fallback
      `valueOf` returns the object itself, which is not a primitive. An array is
      converted by joining its elements, so it throws exactly when one of its
      elements does. Every other JSON value converts. */
  predicate Unprintable(v: Json)
    decreases v
  {
    match v
    case JObject(members) => "toString" in members
    case JArray(items) => exists i :: 0 <= i < |items| && Unprintable(items[i])
    case _ => false
  }

  /** Which serve ids cannot be written into a log line. */
  lemma UnprintableExamples()
    ensures Unprintable(JObject(map["toString" := JString("x")]))
    ensures Unprintable(JArray([JNull, JObject(map["toString" := JNumber(1.0)])]))
    ensures !Unprintable(JObject(map["valueOf" := JString("x")]))
    ensures !Unprintable(JArray([JNull, JString("a"), JArray([JObject(map[])])]))
    ensures !Unprintable(JString("abc")) && !Unprintable(JNumber(7.0)) && !Unprintable(JBool(true))
  {
    var nested := JArray([JNull, JObject(map["toString" := JNumber(1.0)])]);
    assert Unprintable(nested.items[1]);
    var inner := JArray([JObject(map[])]);
    assert !Unprintable(inner.items[0]);
    var outer := JArray([JNull, JString("a"), inner]);
    assert forall i :: 0 <= i < |outer.items| ==> !Unprintable(outer.items[i]);
  }

  /** Property read `value[name]` as object destructuring performs it: an own
      member of an object, and `undefined` for every other kind of value. */
  function Field(value: Json, name: string): Option<Json> {
    if value.JObject? && name in value.members then Some(value.members[name]) else None
  }

  /** The falsy values are exactly the absent value and the five falsy JSON scalars. */
  lemma FalsyValues(v: Option<Json>)
    ensures !Truthy(v) <==>
      v == None || v == Some(JNull) || v == Some(JBool(false))
      || v == Some(JNumber(0.0)) || v == Some(JString(""))
  {
  }
}

=== FILE: text.dfy ===
/**
 * The string operations the handler applies to image content:
 * `String.prototype.includes`, `String.prototype.split` with a non-empty
 * separator, and the data-URI extraction `content.split("base64,")[1]`.
 */
module Text {
  import opened Wrappers

  /** The marker that introduces base64 data inside a data URI. */
  const Base64Marker: string := "base64,"

  /** `m` occurs in `s` starting at index `i`. */
  predicate OccursAt(s: string, m: string, i: nat) {
    i + |m| <= |s| && s[i..i + |m|] == m
  }

  /** `i` is the first occurrence of `m` in `s`. */
  predicate FirstAt(s: string, m: string, i: nat) {
    OccursAt(s, m, i) && forall j: nat :: j < i ==> !OccursAt(s, m, j)
  }

  /** `s.indexOf(m, from)`: the first occurrence of `m` at or after `from`. */
  function IndexOf(s: string, m: string, from: nat): (r: Option<nat>)
    requires |m| > 0
    ensures r.Some? ==> from <= r.value && OccursAt(s, m, r.value)
    ensures r.Some? ==> forall j: nat :: from <= j < r.value ==> !OccursAt(s, m, j)
    ensures r.None? ==> forall j: nat :: from <= j ==> !OccursAt(s, m, j)
    decreases |s| - from
  {
    if from + |m| > |s| then None
    else if s[from..from + |m|] == m then Some(from)
    else IndexOf(s, m, from + 1)
  }

  /** `s.includes(m)`. */
  predicate Contains(s: string, m: string)
    requires |m| > 0
    ensures Contains(s, m) <==> exists i: nat :: OccursAt(s, m, i)
  {
    IndexOf(s, m, 0).Some?
  }

  /** `s.split(m)`: the pieces of `s` between successive non-overlapping
      occurrences of `m`, scanning from the left. */
  function Split(s: string, m: string): (parts: seq<string>)
    requires |m| > 0
    ensures |parts| >= 1
    decreases |s|
  {
    match IndexOf(s, m, 0)
    case None => [s]
    case Some(i) => [s[..i]] + Split(s[i + |m|..], m)
  }

  /** `parts.join(m)`, the inverse of `Split`. */
  function Join(parts: seq<string>, m: string): string
    requires |parts| >= 1
  {
    if |parts| == 1 then parts[0] else parts[0] + m + Join(parts[1..], m)
  }

  /** The base64 payload of image content: the piece after the first marker
      when the content contains one, the content itself otherwise. */
  function ExtractBase64(content: string): (r: string)
    ensures !Contains(content, Base64Marker) ==> r == content
    ensures Contains(content, Base64Marker) ==> |r| + |Base64Marker| <= |content|
  {
    match IndexOf(content, Base64Marker, 0)
    case None => content
    case Some(i) =>
      var start := i + |Base64Marker|;
      match IndexOf(content, Base64Marker, start)
      case None => content[start..]
      case Some(j) => content[start..j]
  }

  /** The first occurrence is the one the search finds. */
  lemma FirstIsFound(s: string, m: string, i: nat)
    requires |m| > 0
    requires FirstAt(s, m, i)
    ensures IndexOf(s, m, 0) == Some(i)
  {
    var found := IndexOf(s, m, 0);
    assert found.Some?;
    assert !(found.value < i);
    assert !(i < found.value);
  }

  /** After the first marker at `i`, the extraction is the marker-free stretch
      that reaches up to the next marker or to the end of the content. */
  lemma ExtractAfterFirstMarker(content: string, i: nat)
    requires FirstAt(content, Base64Marker, i)
    ensures var start := i + |Base64Marker|;
      var r := ExtractBase64(content);
      && start + |r| <= |content|
      && content[start..start + |r|] == r
      && !Contains(r, Base64Marker)
      && (start + |r| == |content| || OccursAt(content, Base64Marker, start + |r|))
  {
    var m := Base64Marker;
    var start := i + |m|;
    FirstIsFound(content, m, i);
    var r := ExtractBase64(content);
    match IndexOf(content, m, start)
    case None =>
      assert r == content[start..];
      NoOccurrenceInSuffix(content, m, start);
      assert content[start..] == content[start..|content|];
    case Some(j) =>
      assert r == content[start..j];
      assert OccursAt(content, m, j);
      NoOccurrenceInSlice(content, m, start, j);
  }

  /** An occurrence inside a slice is an occurrence in the whole string. */
  lemma OccurrenceInSlice(s: string, m: string, lo: nat, hi: nat, k: nat)
    requires lo <= hi <= |s|
    requires k + |m| <= hi - lo
    ensures OccursAt(s[lo..hi], m, k) <==> OccursAt(s, m, lo + k)
  {
    var inner := s[lo..hi][k..k + |m|];
    var outer := s[lo + k..lo + k + |m|];
    forall x | 0 <= x < |m| ensures inner[x] == outer[x] {
      assert inner[x] == s[lo..hi][k + x] == s[lo + k + x];
    }
    assert inner == outer;
  }

  /** An occurrence inside a suffix is an occurrence in the whole string. */
  lemma OccurrenceInSuffix(s: string, m: string, start: nat, k: nat)
    requires start <= |s|
    requires start + k + |m| <= |s|
    ensures OccursAt(s[start..], m, k) <==> OccursAt(s, m, start + k)
  {
    assert s[start..] == s[start..|s|];
    OccurrenceInSlice(s, m, start, |s|, k);
  }

  /** A prefix of a suffix is a slice of the whole string. */
  lemma PrefixOfSuffix(s: string, start: nat, k: nat)
    requires start + k <= |s|
    ensures s[start..][..k] == s[start..start + k]
  {
  }

  /** A slice lying before the next occurrence of `m` does not contain `m`. */
  lemma NoOccurrenceInSlice(s: string, m: string, lo: nat, hi: nat)
    requires |m| > 0
    requires lo <= hi <= |s|
    requires forall j: nat :: lo <= j < hi ==> !OccursAt(s, m, j)
    ensures !Contains(s[lo..hi], m)
  {
    forall k: nat ensures !OccursAt(s[lo..hi], m, k) {
      if k + |m| <= hi - lo {
        OccurrenceInSlice(s, m, lo, hi, k);
      }
    }
  }

  /** A suffix with no occurrence of `m` from `lo` on does not contain `m`. */
  lemma NoOccurrenceInSuffix(s: string, m: string, lo: nat)
    requires |m| > 0
    requires lo <= |s|
    requires forall j: nat :: lo <= j ==> !OccursAt(s, m, j)
    ensures !Contains(s[lo..], m)
  {
    assert s[lo..] == s[lo..|s|];
    NoOccurrenceInSlice(s, m, lo, |s|);
  }

  /** Splitting and joining again gives back the original string. */
  lemma {:induction false} JoinSplit(s: string, m: string)
    requires |m| > 0
    ensures Join(Split(s, m), m) == s
    decreases |s|
  {
    match IndexOf(s, m, 0)
    case None =>
    case Some(i) =>
      var rest := s[i + |m|..];
      var parts := Split(s, m);
      assert parts == [s[..i]] + Split(rest, m);
      assert parts[1..] == Split(rest, m);
      JoinSplit(rest, m);
      assert s[i..i + |m|] == m;
      assert s == s[..i] + s[i..i + |m|] + rest;
  }

  /** No piece of a split contains the separator. */
  lemma {:induction false} SplitPiecesFree(s: string, m: string)
    requires |m| > 0
    ensures forall k :: 0 <= k < |Split(s, m)| ==> !Contains(Split(s, m)[k], m)
    decreases |s|
  {
    match IndexOf(s, m, 0)
    case None =>
    case Some(i) =>
      var rest := s[i + |m|..];
      var parts := Split(s, m);
      assert parts == [s[..i]] + Split(rest, m);
      SplitPiecesFree(rest, m);
      NoOccurrenceInSlice(s, m, 0, i);
      assert s[..i] == s[0..i];
      forall k | 0 <= k < |parts| ensures !Contains(parts[k], m) {
        if k > 0 {
          assert parts[k] == Split(rest, m)[k - 1];
        }
      }
  }

  /** A string splits into more than one piece exactly when it contains the separator. */
  lemma SplitCount(s: string, m: string)
    requires |m| > 0
    ensures Contains(s, m) <==> |Split(s, m)| >= 2
  {
  }

  /** One step of the search from `q` when the marker still fits. */
  lemma IndexOfStep(s: string, m: string, q: nat)
    requires |m| > 0
    requires q + |m| <= |s|
    ensures IndexOf(s, m, q) == if OccursAt(s, m, q) then Some(q) else IndexOf(s, m, q + 1)
  {
  }

  /** The search from `q` finds nothing once the marker no longer fits. */
  lemma IndexOfPastEnd(s: string, m: string, q: nat)
    requires |m| > 0
    requires q + |m| > |s|
    ensures IndexOf(s, m, q).None?
  {
  }

  /** Searching a suffix from `q` finds the same occurrences as searching the
      whole string from the corresponding position `p`, shifted by where the
      suffix begins. */
  lemma {:induction false} IndexOfSuffix(s: string, m: string, start: nat, q: nat, p: nat)
    requires |m| > 0
    requires start <= |s|
    requires p == start + q
    ensures IndexOf(s[start..], m, q).None? <==> IndexOf(s, m, p).None?
    ensures IndexOf(s, m, p).Some? ==>
      IndexOf(s[start..], m, q).Some? && IndexOf(s[start..], m, q).value + start == IndexOf(s, m, p).value
    decreases |s| - p
  {
    var rest := s[start..];
    if p + |m| <= |s| {
      IndexOfStep(rest, m, q);
      IndexOfStep(s, m, p);
      OccurrenceInSuffix(s, m, start, q);
      if OccursAt(s, m, p) {
        assert IndexOf(rest, m, q) == Some(q);
        assert IndexOf(s, m, p) == Some(p);
      } else {
        IndexOfSuffix(s, m, start, q + 1, p + 1);
        var a := IndexOf(rest, m, q + 1);
        var b := IndexOf(s, m, p + 1);
        assert IndexOf(rest, m, q) == a;
        assert IndexOf(s, m, p) == b;
      }
    } else {
      IndexOfPastEnd(rest, m, q);
      IndexOfPastEnd(s, m, p);
    }
  }

  /** An occurrence `j` found from `start` is the first occurrence `k` in the
      suffix from `start`, shifted by `start`. */
  lemma SuffixSearch(s: string, m: string, start: nat, j: nat) returns (k: nat)
    requires |m| > 0
    requires IndexOf(s, m, start) == Some(j)
    ensures start <= |s|
    ensures IndexOf(s[start..], m, 0) == Some(k)
    ensures start + k == j
  {
    var found := IndexOf(s, m, start);
    assert found.value == j;
    IndexOfSuffix(s, m, start, 0, start);
    var r := IndexOf(s[start..], m, 0);
    assert r.value + start == found.value;
    k := r.value;
  }

  /** With no occurrence from `start` on, the suffix from `start` has none either. */
  lemma SuffixSearchNone(s: string, m: string, start: nat)
    requires |m| > 0
    requires start <= |s|
    requires IndexOf(s, m, start).None?
    ensures IndexOf(s[start..], m, 0).None?
  {
    IndexOfSuffix(s, m, start, 0, start);
  }

  /** Unfolding `Split` once at the first occurrence `i`. */
  lemma SplitAt(s: string, m: string, i: nat)
    requires |m| > 0
    requires IndexOf(s, m, 0) == Some(i)
    ensures Split(s, m) == [s[..i]] + Split(s[i + |m|..], m)
  {
    var found := IndexOf(s, m, 0);
    assert found.value == i;
    assert i + |m| <= |s|;
    var parts := Split(s, m);
    assert parts == [s[..i]] + Split(s[i + |m|..], m);
  }

  /** Without any occurrence the split is the whole string. */
  lemma SplitNone(s: string, m: string)
    requires |m| > 0
    requires IndexOf(s, m, 0).None?
    ensures Split(s, m) == [s]
  {
    var found := IndexOf(s, m, 0);
    assert found.None?;
  }

  /** With no further occurrence, the piece after the first one is the rest of the string. */
  lemma SecondPieceLast(s: string, m: string, i: nat)
    requires |m| > 0
    requires IndexOf(s, m, 0) == Some(i)
    requires IndexOf(s, m, i + |m|).None?
    ensures |Split(s, m)| >= 2
    ensures Split(s, m)[1] == s[i + |m|..]
  {
    var start := i + |m|;
    var rest := s[start..];
    SplitAt(s, m, i);
    SuffixSearchNone(s, m, start);
    SplitNone(rest, m);
    assert Split(s, m)[1] == Split(rest, m)[0];
  }

  /** The first piece of a split ends at the first occurrence. */
  lemma FirstPiece(s: string, m: string, k: nat)
    requires |m| > 0
    requires IndexOf(s, m, 0) == Some(k)
    ensures k <= |s|
    ensures Split(s, m)[0] == s[..k]
  {
    SplitAt(s, m, k);
  }

  /** The second piece of a split is the first piece of what follows the first occurrence. */
  lemma SecondPieceOfRest(s: string, m: string, i: nat)
    requires |m| > 0
    requires IndexOf(s, m, 0) == Some(i)
    ensures |Split(s, m)| >= 2
    ensures Split(s, m)[1] == Split(s[i + |m|..], m)[0]
  {
    SplitAt(s, m, i);
  }

  /** The second piece of a split ends where the first occurrence `k` in the
      rest lies, at `j` in the whole string. */
  lemma SecondPieceFromRest(s: string, m: string, i: nat, k: nat, j: nat)
    requires |m| > 0
    requires IndexOf(s, m, 0) == Some(i)
    requires IndexOf(s[i + |m|..], m, 0) == Some(k)
    requires j == i + |m| + k
    ensures j <= |s|
    ensures |Split(s, m)| >= 2
    ensures Split(s, m)[1] == s[i + |m|..j]
  {
    SecondPieceOfRest(s, m, i);
    FirstPiece(s[i + |m|..], m, k);
    PrefixOfSuffix(s, i + |m|, k);
  }

  /** With a further occurrence at `j`, the piece after the first one ends at `j`. */
  lemma SecondPieceMiddle(s: string, m: string, i: nat, j: nat)
    requires |m| > 0
    requires IndexOf(s, m, 0) == Some(i)
    requires IndexOf(s, m, i + |m|) == Some(j)
    ensures |Split(s, m)| >= 2
    ensures Split(s, m)[1] == s[i + |m|..j]
  {
    var k := SuffixSearch(s, m, i + |m|, j);
    SecondPieceFromRest(s, m, i, k, j);
  }

  /** The extraction is exactly the JavaScript expression `content.split("base64,")[1]`
      whenever `content.includes("base64,")`. */
  lemma ExtractIsSecondPiece(content: string)
    requires Contains(content, Base64Marker)
    ensures |Split(content, Base64Marker)| >= 2
    ensures ExtractBase64(content) == Split(content, Base64Marker)[1]
  {
    var i := IndexOf(content, Base64Marker, 0).value;
    match IndexOf(content, Base64Marker, i + |Base64Marker|)
    case None => SecondPieceLast(content, Base64Marker, i);
    case Some(j) => SecondPieceMiddle(content, Base64Marker, i, j);
  }

  /** The marker has no proper prefix that is also a suffix, so an occurrence
      can never straddle the start of another one. */
  lemma MarkerUnbordered()
    ensures forall k :: 0 < k < |Base64Marker| ==> Base64Marker[..k] != Base64Marker[|Base64Marker| - k..]
  {
    var m := Base64Marker;
    assert m == ['b', 'a', 's', 'e', '6', '4', ','];
    forall k | 0 < k < |m| ensures m[..k] != m[|m| - k..] {
      assert m[..k][0] == 'b';
      assert m[|m| - k..][0] == m[|m| - k] != 'b';
    }
  }

  /** In `prefix + "base64," + rest` with a marker-free prefix, the marker
      right after the prefix is the first one. */
  lemma MarkerAfterFreePrefix(prefix: string, rest: string)
    requires !Contains(prefix, Base64Marker)
    ensures FirstAt(prefix + Base64Marker + rest, Base64Marker, |prefix|)
  {
    var m := Base64Marker;
    var s := prefix + m + rest;
    var p := |prefix|;
    assert s[p..p + |m|] == m;
    MarkerUnbordered();
    forall j: nat | j < p ensures !OccursAt(s, m, j) {
      if j + |m| <= p {
        assert s[j..j + |m|] == prefix[j..j + |m|];
        assert !OccursAt(prefix, m, j);
      } else {
        var k := j + |m| - p;
        assert s[p..p + k] == s[p..p + |m|][..k] == m[..k];
        assert s[j..j + |m|][|m| - k..] == s[p..p + k];
      }
    }
  }

  /** A marker-free string placed at the end stays marker-free. */
  lemma FreeSuffix(head: string, data: string)
    requires !Contains(data, Base64Marker)
    ensures forall t: nat :: |head| <= t ==> !OccursAt(head + data, Base64Marker, t)
  {
    var m := Base64Marker;
    var s := head + data;
    forall t: nat | |head| <= t ensures !OccursAt(s, m, t) {
      if t + |m| <= |s| {
        assert s[t..t + |m|] == data[t - |head|..t - |head| + |m|];
        assert !OccursAt(data, m, t - |head|);
      }
    }
  }

  /** For a data URI `prefix + "base64," + data` whose prefix and data are free
      of the marker, the extraction returns exactly the data. */
  lemma DataUriPayload(prefix: string, data: string)
    requires !Contains(prefix, Base64Marker)
    requires !Contains(data, Base64Marker)
    ensures ExtractBase64(prefix + Base64Marker + data) == data
  {
    var m := Base64Marker;
    var s := prefix + m + data;
    var start := |prefix| + |m|;
    MarkerAfterFreePrefix(prefix, data);
    ExtractAfterFirstMarker(s, |prefix|);
    assert s == (prefix + m) + data;
    FreeSuffix(prefix + m, data);
    var r := ExtractBase64(s);
    assert !OccursAt(s, m, start + |r|);
    assert s[start..] == data;
  }
}

=== FILE: wrappers.dfy ===
/** Optional values and success/failure results shared by the emailer model. */
module Wrappers {

  /** A value that may be absent; `None` plays the role of JavaScript's `undefined`. */
  datatype Option<+T> = None | Some(value: T)

  /** The outcome of a stage that either produces a value or fails with a message. */
  datatype Result<+R, +E> = Success(value: R) | Failure(error: E)
}
